=== FILE: README.md ===
# Assessment recommendation: reply extraction and filtering, in Dafny

The application asks a hosted language model to recommend up to ten assessment
products for a job description. The model answers in free text. Two entry
points then work on that text:

- the HTTP API (`api.py`). `extract_valid_json` locates the first
  JSON-array-looking substring, parses it and keeps the items that carry the
  six required keys (`Assessment Name`, `URL`, `Remote Testing Support`,
  `Adaptive/IRT Support`, `Duration`, `Test Type`). It normalises Duration to
  the first run of digits and wraps a scalar Test Type into a list, then
  truncates to ten. `recommend_assessments` turns the outcome into a 400, 500
  or 200 response.
- the Streamlit page (`app.py`). `json_extraction` does the same search
  without validation or cap. The results block keeps the complete records,
  offers the Test Type options, and filters by selected types and by a
  maximum duration. A separate regular expression decides whether user input
  is an http(s) URL.

This project models those pieces as pure Dafny functions and short methods
over `seq<char>`, a JSON value datatype and a record datatype, and proves the
properties below.

Modules, one per concern:

- `Wrappers`: `Option`.
- `Seqs`: the reference `Filter` and the subsequence relation.
- `PyText`: Python's whitespace set, `str.strip()`, substring membership.
- `Digits`: `re.search(r'\d+', s)` read by `int()`, and `str(n)`.
- `Json`: the decoded JSON values, with dict lookup, truthiness, iteration and `str()`.
- `Schema`: the six keys.
- `ArraySearch`: the `\[\s*{.*?}\s*]` search.
- `Extract`: `extract_valid_json`.
- `Api`: `recommend_assessments`.
- `Ui`: `json_extraction` and the filter block.
- `UrlCheck`: the URL pattern.

Choices the model makes explicit:

- `json.loads` is the parameter `parse: string -> Option<Json>`. Nothing is
  assumed about it. Every property holds for any parser.
- An exception in `extract_valid_json` is caught for the whole function. So a
  single item that raises empties the whole batch, even when it comes after the
  tenth item (`Extract.RaiseEmptiesBatch`). An item raises when:
  - it is an integer, float, boolean or null, because `k in item` raises;
  - it is a list or string that passes the key test, because `item["Duration"]`
    then raises;
  - it is a complete dict whose record cannot be built.
- Record construction follows Pydantic 2's default (lax) rules for the
  `AssessmentOutput` fields. The four text fields accept only JSON strings.
  `Test_Type` accepts only a list of strings.
- `\s` is the complete set of characters Python's `str.isspace()` accepts. The
  `re` module and `str.strip()` use that same set. `\d` is restricted to the
  ASCII digits.
- `str(v)` of a Duration is modelled for every JSON shape: `None`, `True`,
  `False`, integers, float repr text, strings, and the repr of lists and dicts
  (string quoting and the `\\`, `\t`, `\n`, `\r`, `\xhh` escapes).

Behaviour of the code that a reader might not expect:

- A well-formed array embedded in prose is not always extracted whole. The
  search stops at the first `}` that optional whitespace and a `]` follow.
  That `}` can be inside a JSON string (`ArraySearch.StopsAtFirstClose`). The
  match can also start at any earlier `[ { … } ]` in the prose.
- A missing key only drops that element (`Extract.DroppedItemIsolated`). A
  field of the wrong type makes construction raise, and that empties the
  whole batch.
- The "no valid recommendations" 500 is raised inside the handler's own `try`.
  Its `except` catches it again. The detail becomes
  `Gemini API error: 500: No valid recommendations were generated.`
- Nothing checks that the assessment name is non-empty.
- `int()` refuses a run of more than 4300 digits (CPython's default
  `sys.int_info.default_max_str_digits`), and `str()` refuses an integer that
  long. In the API the ValueError is caught and the batch empties. In the page
  it is not caught, and it stops the script.

## Model

| member | source | states |
|---|---|---|
| `ArraySearch.FindArrayIsLeftmostShortest` | api.py:35 | The span found is in the pattern's language. No match starts further left, and none from the same start is shorter. When nothing is found, no substring matches at all. |
| `ArraySearch.MatchAtIsMatch` | api.py:35 | From a fixed `[`, the engine's lazy `.*?` yields a match, and no shorter match starts there. |
| `ArraySearch.CloseFrom` | api.py:35 | The lazy quantifier stops at the first `}` after which optional whitespace leads to `]`. It finds nothing only when no such `}` exists. |
| `ArraySearch.SearchFrom` | api.py:35 | Start positions are tried left to right. The first one that matches is returned, and every earlier start has no match. |
| `ArraySearch.StopsAtFirstClose` | api.py:35 | A `}]` inside a JSON string ends the match early, so a well-formed array is cut short. |
| `Digits.FirstDigitRun` | api.py:44-45 | `NoDigits` exactly when the text has no digit. `TooLong` exactly when the first maximal run of digits has more than 4300 digits, which `int()` refuses. Otherwise the value of that run. |
| `Digits.FirstRunUnique` | api.py:44 | The first maximal run of digits is unique, so the value read is determined. |
| `Digits.Decimal` | api.py:44 | `str(n)` is a non-empty string of digits that reads back as `n`. It is `0` for zero and has no leading zero otherwise, so its length is the number of digits of `n`. |
| `Digits.FirstDigitRunExamples` | api.py:44-45 | "45 mins" gives 45, "90" gives 90, "PT1H30M" gives 1 and "-5" gives 5. "N/A" has no digits. |
| `PyText.Strip` | api.py:62 | `strip()` is empty exactly when the text is all whitespace. Otherwise the result is a slice with whitespace only outside it, and neither end is whitespace. |
| `Extract.Build` | api.py:47-54 | `AssessmentOutput(...)` is the partial inverse of reading a record's fields back. When it succeeds, the record's fields are exactly the arguments. When it fails, no record at all has those fields, so the failure is forced by the arguments' types. |
| `Json.PyStr` | api.py:44 | `str(v)` of a string is the string itself. `None`, `True` and `False` have no digit. An integer gives `-` when it is negative, then the decimal digits of its absolute value with no leading zero (`0` alone for zero). A list starts with `[` and ends with `]`, and a dict starts with `{` and ends with `}`. |
| `Extract.Classify` | api.py:39-54 | A kept item is a complete dict, and a skipped item is not. A dict is skipped exactly when it lacks one of the six keys. A number, boolean or null always raises, because `k in item` does. |
| `Extract.ContainerItemRaises` | api.py:40-44 | A list item raises exactly when the six key names are among its elements, because `item["Duration"]` then fails on a list. A string item raises exactly when it contains each key name as a substring. Any other list or string is skipped. |
| `Extract.KeptRecord` | api.py:44-54 | A complete dict raises exactly when its Duration gives a digit run too long for `int()`, a text field is not a string, or its Test Type, seen as a list, holds a non-string. A kept record carries the dict's texts and the normalised Duration. A list Test Type is kept element by element, and a string is wrapped into a one-element list. |
| `Extract.ValidateItems` | api.py:39-58 | The loop fails (the batch empties) exactly when some item raises. |
| `Extract.ValidateItemsMapsComplete` | api.py:39-54 | Without a raise, there is one record per complete item, in the items' order. |
| `Extract.FromParsed` | api.py:39-55 | At most ten records whatever was parsed. |
| `Extract.ExtractValidJson` | api.py:33-58 | At most ten records. Without an array-looking substring, none. |
| `Extract.ExtractOfParsedArray` | api.py:35-55 | When the parse gives a list and no item raises, the length is min(10, number of complete items). Record n is built from the n-th complete item. |
| `Extract.ParseFailureEmpties` | api.py:36-58 | A parse failure gives the empty list. |
| `Extract.RaiseEmptiesBatch` | api.py:39-58 | One raising item, at any position, empties the whole result. |
| `Extract.DroppedItemIsolated` | api.py:39-43 | Deleting a skipped item (one missing a key) changes neither the loop's result nor the final list. |
| `Extract.LoopSkipsDropped` | api.py:39-43 | The validation loop gives the same outcome with or without an item it skips, at any position. |
| `Extract.OnlyListsYieldRecords` | api.py:37-43 | A parsed value that is not a list never yields a record. |
| `Extract.DurationOfString` | api.py:44-45 | A string Duration without a digit becomes 0. One whose first run of digits has at most 4300 digits becomes that run's value. A longer first run makes `int()` raise, and only then is there no duration. |
| `Extract.DurationOfInt` | api.py:44-45 | An integer Duration becomes its absolute value, so the result is never negative. When that value has more than 4300 decimal digits, `str()` raises instead. |
| `Api.Recommend` | api.py:60-88 | 400 exactly for a blank query. 500 exactly when the query is not blank and the model call failed or extraction is empty; for empty extraction the detail carries the re-raise prefix. 200 carries the extraction, with 1 to 10 records. |
| `Api.BlankQueryIgnoresCompletion` | api.py:62-63 | A blank query gets 400 whatever the model would have returned, so no model call matters. |
| `Ui.JsonExtraction` | app.py:64-71 | No match gives `[]`. When the located substring parses, the result is the parsed value: no key check and no cap. When it does not parse, the result is `[]`. |
| `Ui.ValidRecs` | app.py:186-191 | When every item is a dict, the result is the order-preserving filter of the complete dicts. Any other item stops the script. |
| `Ui.TestTypeOptions` | app.py:195-200 | A value is an option exactly when some record's Test Type is that string or a list holding it. The set equals the record-by-record union `OptionSet`. The script stops exactly when a list Test Type holds a list or dict. |
| `Ui.FilterByTestType` | app.py:204-209 | With nothing selected, the identity. Otherwise the in-order reference filter of the records in whose Test Type some selected type occurs, a string counting as a one-element list. |
| `Ui.FilterByDuration` | app.py:210-217 | The script stops exactly when some record's Duration is a string whose first run of digits is longer than `int()` accepts. Otherwise the result is the in-order reference filter of the records whose Duration is a string with a digit and whose first run of digits, of at most 4300 digits, is at most the maximum. |
| `Ui.ApplyFilters` | app.py:203-217 | The script stops exactly when a record that passes the Test Type filter has a Duration too long for `int()`. Otherwise `filtered_recs` is the Duration filter applied to the Test Type filter (skipped when nothing is selected) of `valid_recs`. Every row is complete, passes the duration bound, and matches a selected type when any is selected. |
| `Ui.FilteredIsSubseq` | app.py:203-217 | `filtered_recs` is a subsequence of `valid_recs`: the filters only delete records and never reorder them. |
| `Ui.Render` | app.py:182-241 | Nothing is shown, or the parse error appears, exactly when the parsed value is falsy, depending on whether a raw reply exists. A truthy value stops the script exactly when it cannot be iterated, an item is not a dict, or there are valid records and the option set is unhashable or unsortable or a Duration is too long for `int()`. The missing-fields warning appears exactly when no record is complete. The no-match message appears exactly when nothing stops the script and the filters leave nothing. A table's rows are exactly `filtered_recs`: a non-empty subsequence of the parsed items that passes both filters. |
| `Ui.DurationFilterVersusApi` | app.py:210-217 | A non-string Duration, or a string without a digit, drops the record from the table. The API keeps an integer Duration as its absolute value, unless that integer is too long for `str()`. It keeps a digitless string Duration as 0. A string Duration stops the page exactly when it makes the API raise. |
| `UrlCheck.ScanTail` | app.py:152 | `[^\s]*$` accepts exactly a whitespace-free rest, or one that is whitespace-free up to a single final newline. |
| `UrlCheck.UrlFormatMatchesPattern` | app.py:152 | The scan accepts exactly the strings in the anchored pattern's language, optionally followed by one newline. |
| `UrlCheck.AcceptedHasScheme` | app.py:152 | An accepted string starts with "http://" or "https://" and has at least two more characters. |
| `UrlCheck.UrlExamples` | app.py:152 | A space may be the second host character and one trailing newline is accepted. An empty host or an ftp scheme is refused. |

## Left out

- The language-model calls and the response object (api.py:78-80, app.py:73-94) are not modelled: they are foreign network calls. Their outcome is an input: `Api.Completion`, or the raw text given to `Ui.JsonExtraction`.
- The failure path of `get_assessment_recommendation` is not modelled. It returns a list, which `json_extraction` turns into `[]` through a caught TypeError.
- The prompt texts (api.py:65-76, app.py:75-88) are not modelled: they are constant strings with no behaviour.
- Page fetching and HTML text extraction (app.py:96-117) are not modelled: they are network I/O plus an external library.
- The health endpoint (api.py:29-31) is not modelled: it returns a constant.
- Request-body validation by the web framework (a 422 for a non-string query) is not modelled: it is framework plumbing.
- The catalog CSV loading, Streamlit widgets and layout, CSS, session bookkeeping, reset and rerun are not modelled: they are I/O and UI. The user's Test Type selection and maximum duration are inputs to `Ui.Render`.
- API-key loading is not modelled: it is environment configuration.
- The diagnostic `print` on the extraction error path is not modelled: it is output only.
- How `json.loads` parses is not modelled: it is the `parse` parameter.
- Extract.Build: follows Pydantic 2's lax rules. Pydantic 1 also coerces numbers to strings, and that is not modelled.
- Digits.FirstDigitRun: reads ASCII digits only. Python's `\d` and `int()` also accept other Unicode decimal digits.
- Extract.NormalizeDuration: raises only when the first run of digits of `str(v)` is longer than 4300 digits. For a list or dict Duration, Python's `str()` also raises when a later integer inside it is that long.
- Json.PyStr: for a list or dict, the contract fixes only the enclosing brackets. The repr of the contents, and so the digits `Extract.NormalizeDuration` reads from it, is fixed by the definition alone (`Repr`, `ItemsRepr`, `MembersRepr`).
- Json.StrRepr: treats every non-ASCII character as printable. Python escapes the non-printable ones.
- Json.Get: reads the first member with a key. The dicts `json.loads` builds never repeat a key.
- Ui.TestTypeOptions: compares values structurally. Python's sets identify 1, 1.0 and True, and treat NaN specially.
- Ui.Selects: compares values structurally. Python's `in` identifies 1, 1.0 and True, and treats NaN specially.
- Ui.FilterByTestType: inherits the structural comparison of `Ui.Selects`.
- Ui.Sortable: only approximates when `sorted()` on the option set succeeds. It assumes all strings, all numbers, or at most one element.

=== FILE: api.dfy ===
/** `recommend_assessments`, the POST /recommend handler of api.py, as a decision
    over its inputs. The language-model call is not modelled: its outcome, a
    generated text or a failure message, is an input. */
module Api {
  import opened Wrappers
  import opened PyText
  import opened Json
  import opened Extract

  /** What the model call produced */
  datatype Completion = Generated(text: string) | Failed(message: string)

  /** An `HTTPException` with its status and detail, or the 200 body */
  datatype Response = Error(status: int, detail: string) | Recommended(assessments: seq<Record>)

  const EmptyQueryDetail := "Query cannot be empty"
  const NoRecommendationsDetail := "No valid recommendations were generated."
  const UpstreamPrefix := "Gemini API error: "

  /** A blank query is refused with 400 before any model call. A failed call or
      an empty extraction both end in 500: the 500 raised for an empty
      extraction is caught by the handler's own `except` and raised again as a
      500 whose detail carries the upstream prefix. Otherwise 200 with one to ten
      records. */
  function Recommend(parse: string -> Option<Json>, query: string, completion: Completion): (r: Response)
    ensures r.Error? ==> r.status == 400 || r.status == 500
    ensures r.Error? && r.status == 400 <==> AllSpace(query)
    ensures r.Error? && r.status == 500 <==>
              !AllSpace(query) && (completion.Failed? || ExtractValidJson(parse, completion.text) == [])
    ensures r.Recommended? ==>
              && completion.Generated?
              && 1 <= |r.assessments| <= MaxResults
              && r.assessments == ExtractValidJson(parse, completion.text)
    ensures r.Error? && r.status == 500 && completion.Generated? ==>
              r.detail == UpstreamPrefix + "500: " + NoRecommendationsDetail
  {
    if query == [] || Strip(query) == [] then Error(400, EmptyQueryDetail)
    else
      match completion
      case Failed(message) => Error(500, UpstreamPrefix + message)
      case Generated(text) =>
        var assessments := ExtractValidJson(parse, text);
        if assessments == [] then Error(500, UpstreamPrefix + "500: " + NoRecommendationsDetail)
        else Recommended(assessments)
  }

  /** A blank query gets the same answer whatever the model would have said */
  lemma BlankQueryIgnoresCompletion(parse: string -> Option<Json>, query: string, c1: Completion, c2: Completion)
    requires AllSpace(query)
    ensures Recommend(parse, query, c1) == Recommend(parse, query, c2) == Error(400, EmptyQueryDetail)
  {
  }
}

=== FILE: array_search.dfy ===
/** `re.search(r'\[\s*{.*?}\s*]', text, re.DOTALL)`, written as an explicit scan.

    The pattern matches a `[`, optional whitespace, a `{`, any characters, a `}`,
    optional whitespace and a `]`. Python's search takes the leftmost start from
    which a match exists; from that start the lazy `.*?` takes the first `}`
    after which optional whitespace leads to a `]`, which is also the shortest
    match from that start. */
module ArraySearch {
  import opened Wrappers
  import opened PyText

  /** The half-open range `text[start..end]` of a match */
  datatype Span = Span(start: nat, end: nat)

  /** `text[i..e]` is, as a whole, in the language of the pattern */
  ghost predicate IsMatch(text: string, i: int, e: int) {
    && 0 <= i
    && i + 4 <= e <= |text|
    && text[i] == '['
    && text[e - 1] == ']'
    && exists j, k | i < j < k < e - 1 ::
         && (forall p | i < p < j :: IsSpace(text[p]))
         && text[j] == '{'
         && text[k] == '}'
         && (forall p | k < p < e - 1 :: IsSpace(text[p]))
  }

  /** If `text[k]` is a `}` followed by optional whitespace and a `]`, the end of that `]` */
  function CloseAt(text: string, k: nat): (r: Option<nat>)
    ensures r.Some? ==> k + 2 <= r.value <= |text|
  {
    if k < |text| && text[k] == '}' then
      var m := SkipSpace(text, k + 1);
      if m < |text| && text[m] == ']' then Some(m + 1) else None
    else None
  }

  /** The first `k` at or after `from` at which `CloseAt` succeeds: the lazy `.*?` */
  function CloseFrom(text: string, from: nat): (r: Option<nat>)
    requires from <= |text|
    ensures r.Some? ==> from <= r.value < |text| && CloseAt(text, r.value).Some?
    ensures r.Some? ==> forall k | from <= k < r.value :: CloseAt(text, k).None?
    ensures r.None? ==> forall k | from <= k < |text| :: CloseAt(text, k).None?
    decreases |text| - from
  {
    if from == |text| then None
    else if CloseAt(text, from).Some? then Some(from)
    else CloseFrom(text, from + 1)
  }

  /** The end of the match the regular-expression engine finds when it starts at `i` */
  function MatchAt(text: string, i: nat): (r: Option<nat>)
    ensures r.Some? ==> i + 4 <= r.value <= |text|
  {
    if i < |text| && text[i] == '[' then
      var j := SkipSpace(text, i + 1);
      if j < |text| && text[j] == '{' then
        match CloseFrom(text, j + 1)
        case Some(k) => CloseAt(text, k)
        case None => None
      else None
    else None
  }

  /** Tries the starts `i`, `i + 1`, ... in turn */
  function SearchFrom(text: string, i: nat): (r: Option<Span>)
    requires i <= |text|
    ensures r.Some? ==> i <= r.value.start && MatchAt(text, r.value.start) == Some(r.value.end)
    ensures r.Some? ==> forall i' | i <= i' < r.value.start :: MatchAt(text, i').None?
    ensures r.None? ==> forall i' | i <= i' < |text| :: MatchAt(text, i').None?
    decreases |text| - i
  {
    if i == |text| then None
    else match MatchAt(text, i)
      case Some(e) => Some(Span(i, e))
      case None => SearchFrom(text, i + 1)
  }

  /** The span of the first JSON-array-looking substring of `text`, if any */
  function FindArray(text: string): (r: Option<Span>)
    ensures r.Some? ==> r.value.start < r.value.end <= |text|
  {
    SearchFrom(text, 0)
  }

  /** A `}` closing at `e` whose whitespace tail reaches `]` makes `CloseAt` succeed there */
  lemma CloseAtOfMatch(text: string, k: nat, e: nat)
    requires k + 2 <= e <= |text|
    requires text[k] == '}' && text[e - 1] == ']' && forall p | k < p < e - 1 :: IsSpace(text[p])
    ensures CloseAt(text, k) == Some(e)
  {
    SkipSpaceStopsAt(text, k + 1, e - 1);
  }

  /** `SkipSpace` stops at the first non-space character */
  lemma SkipSpaceStopsAt(text: string, i: nat, m: nat)
    requires i <= m < |text|
    requires (forall p | i <= p < m :: IsSpace(text[p])) && !IsSpace(text[m])
    ensures SkipSpace(text, i) == m
  {
  }

  /** Two closings from different `}`s end at different places, in the same order */
  lemma CloseAtMonotone(text: string, k1: nat, k2: nat)
    requires k1 < k2
    requires CloseAt(text, k1).Some? && CloseAt(text, k2).Some?
    ensures CloseAt(text, k1).value < CloseAt(text, k2).value
  {
  }

  /** What `MatchAt` finds is a match, and no shorter match starts at `i` */
  lemma MatchAtIsMatch(text: string, i: nat)
    requires MatchAt(text, i).Some?
    ensures IsMatch(text, i, MatchAt(text, i).value)
    ensures forall e | e < MatchAt(text, i).value :: !IsMatch(text, i, e)
  {
    var j := SkipSpace(text, i + 1);
    var k := CloseFrom(text, j + 1).value;
    var e := CloseAt(text, k).value;
    var m := SkipSpace(text, k + 1);
    assert e == m + 1;
    assert IsMatch(text, i, e);
    forall e' | e' < e
      ensures !IsMatch(text, i, e')
    {
      if IsMatch(text, i, e') {
        ShortestAt(text, i, e');
      }
    }
  }

  /** Any match from `i` ends no earlier than the one `MatchAt` finds */
  lemma ShortestAt(text: string, i: nat, e': int)
    requires IsMatch(text, i, e')
    ensures MatchAt(text, i).Some? && MatchAt(text, i).value <= e'
  {
    var j', k' :| && i < j' < k' < e' - 1
                 && (forall p | i < p < j' :: IsSpace(text[p]))
                 && text[j'] == '{'
                 && text[k'] == '}'
                 && (forall p | k' < p < e' - 1 :: IsSpace(text[p]));
    SkipSpaceStopsAt(text, i + 1, j');
    CloseAtOfMatch(text, k', e');
    var k := CloseFrom(text, j' + 1).value;
    if k < k' {
      CloseAtMonotone(text, k, k');
    }
  }

  /** Python's `re.search` semantics: the span found is a match, no match starts
      further left, and no shorter match starts at the same place; when nothing is
      found, there is no match anywhere */
  lemma FindArrayIsLeftmostShortest(text: string)
    ensures FindArray(text).Some? ==>
              var sp := FindArray(text).value;
              && IsMatch(text, sp.start, sp.end)
              && (forall i, e | 0 <= i < sp.start :: !IsMatch(text, i, e))
              && (forall e | e < sp.end :: !IsMatch(text, sp.start, e))
    ensures FindArray(text).None? ==> forall i, e :: !IsMatch(text, i, e)
  {
    var r := FindArray(text);
    forall i, e | IsMatch(text, i, e) && (r.None? || i < r.value.start)
      ensures false
    {
      ShortestAt(text, i, e);
    }
    if r.Some? {
      MatchAtIsMatch(text, r.value.start);
    }
  }

  /** The heuristic stops at the first `}]`, even inside a JSON string: here the
      span found is `[{"a": "}]`, which does not parse, although the text holds
      the well-formed array `[{"a": "}]"}]` */
  lemma StopsAtFirstClose()
    ensures FindArray("ok [{\"a\": \"}]\"}]") == Some(Span(3, 13))
  {
    var t := "ok [{\"a\": \"}]\"}]";
    forall k | 5 <= k < 11
      ensures CloseAt(t, k).None?
    {
    }
    assert CloseAt(t, 11) == Some(13);
    assert SkipSpace(t, 4) == 4;
    assert CloseFrom(t, 5) == Some(11);
    assert MatchAt(t, 3) == Some(13);
    forall i | 0 <= i < 3
      ensures MatchAt(t, i).None?
    {
    }
  }
}

=== FILE: digits.dfy ===
/** Decimal numerals: the `re.search(r'\d+', s)` followed by `int(m.group())`
    idiom that both entry points use to read a duration, and the decimal
    rendering `str(n)` of an integer. */
module Digits {
  import opened Wrappers

  /** `\d`, restricted to the ASCII digits */
  predicate IsDigit(c: char) {
    '0' <= c <= '9'
  }

  predicate AllDigits(s: string) {
    forall i | 0 <= i < |s| :: IsDigit(s[i])
  }

  predicate HasDigit(s: string) {
    exists i | 0 <= i < |s| :: IsDigit(s[i])
  }

  function DigitValue(c: char): (d: nat)
    requires IsDigit(c)
    ensures d < 10
  {
    (c as int) - ('0' as int)
  }

  function DigitChar(d: nat): (c: char)
    requires d < 10
    ensures IsDigit(c) && DigitValue(c) == d
  {
    ('0' as int + d) as char
  }

  /** What `int()` makes of a string of ASCII digits */
  function DigitsValue(s: string): nat
    requires AllDigits(s)
  {
    if s == [] then 0 else DigitsValue(s[..|s| - 1]) * 10 + DigitValue(s[|s| - 1])
  }

  /** `str(n)` for a natural number: its decimal numeral, without leading zero,
      which reads back as `n` */
  function Decimal(n: nat): (r: string)
    ensures r != [] && AllDigits(r)
    ensures n > 0 ==> r[0] != '0'
    ensures n == 0 ==> r == "0"
    ensures DigitsValue(r) == n
    decreases n
  {
    if n < 10 then [DigitChar(n)]
    else
      var r := Decimal(n / 10) + [DigitChar(n % 10)];
      assert r[..|r| - 1] == Decimal(n / 10);
      r
  }

  /** `s` has a digit at index `i` */
  predicate DigitAt(s: string, i: int) {
    0 <= i < |s| && IsDigit(s[i])
  }

  /** `s[a..b]` is the first maximal run of digits in `s`: no digit before `a`,
      only digits in `s[a..b]`, and no digit at `b` */
  ghost predicate IsFirstRun(s: string, a: int, b: int) {
    && 0 <= a < b <= |s|
    && (forall i | 0 <= i < a :: !DigitAt(s, i))
    && (forall i | a <= i < b :: DigitAt(s, i))
    && !DigitAt(s, b)
  }

  /** The first run of digits is unique */
  lemma FirstRunUnique(s: string, a: int, b: int, a': int, b': int)
    requires IsFirstRun(s, a, b) && IsFirstRun(s, a', b')
    ensures a == a' && b == b'
  {
    assert DigitAt(s, a) && DigitAt(s, a');
    assert !DigitAt(s, b) && !DigitAt(s, b');
  }

  /** Index of the first digit at or after `i`, or `|s|` */
  function SkipNonDigits(s: string, i: nat): (r: nat)
    requires i <= |s|
    ensures i <= r <= |s|
    ensures !HasDigit(s[i..r])
    ensures r == |s| || IsDigit(s[r])
    decreases |s| - i
  {
    if i == |s| || IsDigit(s[i]) then i
    else
      var r := SkipNonDigits(s, i + 1);
      assert s[i..r] == [s[i]] + s[i + 1..r];
      r
  }

  /** Index just past the run of digits starting at `i` */
  function RunEnd(s: string, i: nat): (r: nat)
    requires i <= |s|
    ensures i <= r <= |s|
    ensures AllDigits(s[i..r])
    ensures r == |s| || !IsDigit(s[r])
    decreases |s| - i
  {
    if i == |s| || !IsDigit(s[i]) then i else RunEnd(s, i + 1)
  }

  /** Reads the digits from `i` to the end of the run, starting from the value
      `acc` of the digits already read from `a` */
  function RunValue(s: string, a: nat, i: nat, acc: nat): (r: nat)
    requires a <= i <= |s|
    requires AllDigits(s[a..i]) && acc == DigitsValue(s[a..i])
    ensures AllDigits(s[a..RunEnd(s, i)]) && r == DigitsValue(s[a..RunEnd(s, i)])
    decreases |s| - i
  {
    if i == |s| || !IsDigit(s[i]) then acc
    else
      assert s[a..i + 1][..i - a] == s[a..i];
      RunValue(s, a, i + 1, acc * 10 + DigitValue(s[i]))
  }

  /** The most digits `int()` converts from a string: CPython's default
      `sys.int_info.default_max_str_digits`. A longer numeral, leading zeros
      included, makes `int()` raise ValueError, and so does `str()` of an
      integer with more decimal digits. */
  const MaxStrDigits: nat := 4300

  /** What `int(m.group())` gives for `m = re.search(r'\d+', s)` */
  datatype IntRead =
    | NoDigits          // no match: the callers fall back on 0 or drop the record
    | TooLong           // the run has more than `MaxStrDigits` digits: ValueError
    | Number(value: nat)

  /** `re.search(r'\d+', s)` read by `int()`: no match when `s` has no digit,
      a ValueError when its first maximal run of digits is too long, otherwise
      the value of that run */
  function FirstDigitRun(s: string): (r: IntRead)
    ensures r.NoDigits? <==> !HasDigit(s)
    ensures r.TooLong? <==> exists a, b :: IsFirstRun(s, a, b) && b - a > MaxStrDigits
    ensures r.Number? ==> exists a, b :: && IsFirstRun(s, a, b) && b - a <= MaxStrDigits
                                         && AllDigits(s[a..b]) && r.value == DigitsValue(s[a..b])
  {
    var a := SkipNonDigits(s, 0);
    assert s[0..a] == s[..a];
    if a == |s| then
      assert s[..a] == s;
      RunHasDigit(s);
      NoDigits
    else
      var b := RunEnd(s, a);
      assert s[a..a] == [];
      assert IsFirstRun(s, a, b);
      FirstRunIsUnique(s, a, b);
      if b - a > MaxStrDigits then TooLong
      else Number(RunValue(s, a, a, 0))
  }

  /** Every first run of digits is the one at `s[a..b]` */
  lemma FirstRunIsUnique(s: string, a: int, b: int)
    requires IsFirstRun(s, a, b)
    ensures forall a', b' | IsFirstRun(s, a', b') :: a' == a && b' == b
  {
    forall a', b' | IsFirstRun(s, a', b')
      ensures a' == a && b' == b
    {
      FirstRunUnique(s, a, b, a', b');
    }
  }

  /** A run of digits is a digit: a text without digits has no first run */
  lemma RunHasDigit(s: string)
    ensures (exists a, b :: IsFirstRun(s, a, b)) ==> HasDigit(s)
  {
    if exists a, b :: IsFirstRun(s, a, b) {
      var a, b :| IsFirstRun(s, a, b);
      assert DigitAt(s, a);
    }
  }

  /** A first run of at most `MaxStrDigits` digits is what `int()` reads */
  lemma ReadsRun(s: string, a: int, b: int)
    requires IsFirstRun(s, a, b) && b - a <= MaxStrDigits
    ensures AllDigits(s[a..b]) && FirstDigitRun(s) == Number(DigitsValue(s[a..b]))
  {
    FirstRunIsUnique(s, a, b);
    assert !FirstDigitRun(s).NoDigits? by { assert DigitAt(s, a); }
  }

  /** Durations as a model might write them */
  lemma FirstDigitRunExamples()
    ensures FirstDigitRun("45 mins") == Number(45)
    ensures FirstDigitRun("90") == Number(90)
    ensures FirstDigitRun("PT1H30M") == Number(1)
    ensures FirstDigitRun("-5") == Number(5)
    ensures FirstDigitRun("N/A") == NoDigits
  {
    MinutesExample();
    PlainExample();
    IsoExample();
    SignExample();
  }

  lemma MinutesExample()
    ensures FirstDigitRun("45 mins") == Number(45)
  {
    var s := "45 mins";
    assert s[0..2] == "45" && "45"[..1] == "4";
    assert IsFirstRun(s, 0, 2);
    ReadsRun(s, 0, 2);
  }

  lemma PlainExample()
    ensures FirstDigitRun("90") == Number(90)
  {
    var s := "90";
    assert s[0..2] == "90" && "90"[..1] == "9";
    assert IsFirstRun(s, 0, 2);
    ReadsRun(s, 0, 2);
  }

  lemma IsoExample()
    ensures FirstDigitRun("PT1H30M") == Number(1)
  {
    var s := "PT1H30M";
    assert s[2..3] == "1";
    assert IsFirstRun(s, 2, 3);
    ReadsRun(s, 2, 3);
  }

  lemma SignExample()
    ensures FirstDigitRun("-5") == Number(5)
  {
    var s := "-5";
    assert s[1..2] == "5";
    assert IsFirstRun(s, 1, 2);
    ReadsRun(s, 1, 2);
  }
}

=== FILE: extract.dfy ===
/** `extract_valid_json` of api.py: locate the array, parse it, keep the items that
    carry the six keys, normalise Duration and Test Type, cap at ten. Every
    exception raised on the way is caught at the function level and turns the
    whole result into the empty list. */
module Extract {
  import opened Wrappers
  import opened Seqs
  import opened Digits
  import opened Json
  import opened Schema
  import opened ArraySearch

  /** The hard cap on the number of recommendations returned */
  const MaxResults: nat := 10

  /** `AssessmentOutput`: one validated recommendation */
  datatype Record = Record(
    name: string,
    url: string,
    remoteTesting: string,
    adaptiveIrt: string,
    duration: nat,
    testTypes: seq<string>)

  /** What the loop body does with one item: skip it, append a record, or raise */
  datatype Outcome = Drop | Keep(rec: Record) | Raise

  /** `int(m.group()) if (m := re.search(r'\d+', str(v))) else 0`: None when
      `int()` raises because the first run of digits is too long */
  function NormalizeDuration(v: Json): Option<nat> {
    match FirstDigitRun(PyStr(v))
    case NoDigits => Some(0)
    case TooLong => None
    case Number(n) => Some(n)
  }

  predicate AllStrings(xs: seq<Json>) {
    forall i | 0 <= i < |xs| :: xs[i].JString?
  }

  /** The keyword arguments of an `AssessmentOutput(...)` call, as JSON values */
  datatype Args = Args(
    name: Json,
    url: Json,
    remoteTesting: Json,
    adaptiveIrt: Json,
    duration: nat,
    testTypes: seq<Json>)

  /** The arguments that describe `rec`: its texts as JSON strings */
  function ArgsOf(rec: Record): Args {
    Args(JString(rec.name), JString(rec.url), JString(rec.remoteTesting), JString(rec.adaptiveIrt),
         rec.duration, seq(|rec.testTypes|, i requires 0 <= i < |rec.testTypes| => JString(rec.testTypes[i])))
  }

  /** `AssessmentOutput(...)` under Pydantic's lax rules: the partial inverse of
      `ArgsOf`. It gives the record the arguments describe, and fails exactly
      when no record is described by them. */
  function Build(args: Args): (r: Option<Record>)
    ensures r.Some? ==> ArgsOf(r.value) == args
    ensures r.None? ==> forall rec: Record :: ArgsOf(rec) != args
  {
    if && args.name.JString? && args.url.JString? && args.remoteTesting.JString?
       && args.adaptiveIrt.JString? && AllStrings(args.testTypes)
    then
      var tts := args.testTypes;
      var rec := Record(
        args.name.s, args.url.s, args.remoteTesting.s, args.adaptiveIrt.s, args.duration,
        seq(|tts|, i requires 0 <= i < |tts| => tts[i].s));
      assert ArgsOf(rec).testTypes == tts;
      Some(rec)
    else
      NotDescribed(args);
      None
  }

  /** Arguments with a text field that is not a string, or a Test Type element
      that is not a string, describe no record */
  lemma NotDescribed(args: Args)
    requires || !args.name.JString? || !args.url.JString? || !args.remoteTesting.JString?
             || !args.adaptiveIrt.JString? || !AllStrings(args.testTypes)
    ensures forall rec: Record :: ArgsOf(rec) != args
  {
    forall rec: Record
      ensures ArgsOf(rec) != args
    {
      var tts := ArgsOf(rec).testTypes;
      assert AllStrings(tts);
    }
  }

  /** The loop body for a complete dict: the Duration is normalised first, which
      may raise, then the record is built from the six values, a list Test Type
      passed as it is and any other value wrapped in a list */
  function BuildFrom(ms: seq<Member>): Option<Record>
    requires HasAllKeys(ms)
  {
    match NormalizeDuration(Get(ms, DurationKey))
    case None => None
    case Some(d) =>
      Build(Args(
        Get(ms, NameKey), Get(ms, UrlKey), Get(ms, RemoteKey), Get(ms, AdaptiveKey),
        d, AsList(Get(ms, TestTypeKey))))
  }

  /** One pass of the loop body. `k in item` tests dict keys, list elements or
      substrings, and raises for any other value; a list or string that passes
      the test then raises on `item["Duration"]`. So a number, boolean or null
      raises, a dict is skipped exactly when it lacks a key, and only a complete
      dict is ever kept. */
  function Classify(item: Json): (r: Outcome)
    ensures r.Keep? ==> IsComplete(item)
    ensures r.Drop? ==> !IsComplete(item)
    ensures item.JObject? ==> (r.Drop? <==> !HasAllKeys(item.members))
    ensures item.JNull? || item.JBool? || item.JInt? || item.JFloat? ==> r.Raise?
  {
    match item
    case JObject(ms) =>
      if HasAllKeys(ms) then
        match BuildFrom(ms)
        case Some(r) => Keep(r)
        case None => Raise
      else Drop
    case JArray(xs) =>
      if forall k | k in RequiredKeys :: JString(k) in xs then Raise else Drop
    case JString(s) =>
      if forall k | k in RequiredKeys :: PyText.Contains(s, k) then Raise else Drop
    case _ => Raise
  }

  /** A list or string item passes the key test when the six key names are
      among its elements or substrings; `item["Duration"]` then raises. Any
      other list or string is skipped. */
  lemma ContainerItemRaises(item: Json)
    ensures item.JArray? ==> (Classify(item).Raise? <==> forall k | k in RequiredKeys :: JString(k) in item.items)
    ensures item.JString? ==> (Classify(item).Raise? <==> forall k | k in RequiredKeys :: PyText.Contains(item.s, k))
    ensures (item.JArray? || item.JString?) && !Classify(item).Raise? ==> Classify(item).Drop?
  {
  }

  /** What a complete dict becomes. It raises exactly when its Duration holds
      a run of digits too long for `int()`, a text field is not a string, or its
      Test Type, seen as a list, holds a non-string. Otherwise the record carries
      the dict's texts and the normalised Duration; a list Test Type is kept
      element by element and a string one becomes a one-element list. */
  lemma KeptRecord(item: Json)
    requires IsComplete(item)
    ensures Classify(item).Raise? <==>
              || NormalizeDuration(Field(item, DurationKey)).None?
              || !Field(item, NameKey).JString? || !Field(item, UrlKey).JString?
              || !Field(item, RemoteKey).JString? || !Field(item, AdaptiveKey).JString?
              || !AllStrings(AsList(Field(item, TestTypeKey)))
    ensures Classify(item).Keep? ==>
              var r := Classify(item).rec;
              var tt := Field(item, TestTypeKey);
              && Field(item, NameKey) == JString(r.name)
              && Field(item, UrlKey) == JString(r.url)
              && Field(item, RemoteKey) == JString(r.remoteTesting)
              && Field(item, AdaptiveKey) == JString(r.adaptiveIrt)
              && Some(r.duration) == NormalizeDuration(Field(item, DurationKey))
              && (tt.JArray? ==> |r.testTypes| == |tt.items|
                                 && forall i | 0 <= i < |tt.items| :: tt.items[i] == JString(r.testTypes[i]))
              && (!tt.JArray? ==> r.testTypes == [tt.s])
  {
    var ms := item.members;
    var d := NormalizeDuration(Get(ms, DurationKey));
    if d.Some? {
      var args := Args(
        Get(ms, NameKey), Get(ms, UrlKey), Get(ms, RemoteKey), Get(ms, AdaptiveKey),
        d.value, AsList(Get(ms, TestTypeKey)));
      var b := Build(args);
      if b.Some? {
        assert ArgsOf(b.value) == args;
        assert forall i | 0 <= i < |args.testTypes| :: args.testTypes[i] == ArgsOf(b.value).testTypes[i];
      }
    }
  }

  /** The loop over the parsed items: None when some item raises, otherwise the
      records of the kept items in order */
  function ValidateItems(items: seq<Json>): (r: Option<seq<Record>>)
    ensures r.None? <==> exists i | 0 <= i < |items| :: Classify(items[i]).Raise?
  {
    if items == [] then Some([])
    else
      var rest := ValidateItems(items[1..]);
      assert forall i | 0 <= i < |items| - 1 :: items[1..][i] == items[i + 1];
      match Classify(items[0])
      case Raise => None
      case Drop => rest
      case Keep(r) => if rest.Some? then Some([r] + rest.value) else None
  }

  /** No item of the list makes the loop body raise */
  predicate NoneRaise(items: seq<Json>) {
    forall i | 0 <= i < |items| :: !Classify(items[i]).Raise?
  }

  /** When no item raises, the records are those of the complete items, one each,
      in the items' order */
  lemma {:induction false} ValidateItemsMapsComplete(items: seq<Json>)
    requires NoneRaise(items)
    ensures var complete := Filter(IsComplete, items);
            && |ValidateItems(items).value| == |complete|
            && forall n | 0 <= n < |complete| :: Classify(complete[n]) == Keep(ValidateItems(items).value[n])
  {
    if items != [] {
      var rest := ValidateItems(items[1..]);
      assert rest.Some?;
      ValidateItemsMapsComplete(items[1..]);
      var c := Classify(items[0]);
      var complete := Filter(IsComplete, items);
      var tail := Filter(IsComplete, items[1..]);
      if c.Keep? {
        assert ValidateItems(items).value == [c.rec] + rest.value;
        assert complete == [items[0]] + tail;
      } else {
        assert c.Drop?;
        assert ValidateItems(items) == rest;
        assert complete == tail;
      }
    }
  }

  /** Everything after the parse: iterate, validate, keep the first ten */
  function FromParsed(data: Json): (r: seq<Record>)
    ensures |r| <= MaxResults
  {
    match Iterate(data)
    case None => []
    case Some(items) =>
      match ValidateItems(items)
      case None => []
      case Some(validated) => if |validated| <= MaxResults then validated else validated[..MaxResults]
  }

  /** `extract_valid_json(text)`, with `json.loads` given as `parse` */
  function ExtractValidJson(parse: string -> Option<Json>, text: string): (r: seq<Record>)
    ensures |r| <= MaxResults
    ensures FindArray(text).None? ==> r == []
  {
    match FindArray(text)
    case None => []
    case Some(sp) =>
      match parse(text[sp.start..sp.end])
      case None => []
      case Some(data) => FromParsed(data)
  }

  /** The normal case: the parsed value is a list in which no item raises. The
      result is then the records of the complete items, in order, cut to the
      first ten: its length is min(10, number of complete items). */
  lemma ExtractOfParsedArray(parse: string -> Option<Json>, text: string, items: seq<Json>)
    requires FindArray(text).Some?
    requires parse(text[FindArray(text).value.start..FindArray(text).value.end]) == Some(JArray(items))
    requires NoneRaise(items)
    ensures var r := ExtractValidJson(parse, text);
            var complete := Filter(IsComplete, items);
            && |r| == (if |complete| <= MaxResults then |complete| else MaxResults)
            && forall n | 0 <= n < |r| :: Classify(complete[n]) == Keep(r[n])
  {
    ValidateItemsMapsComplete(items);
  }

  /** A failed parse empties the result */
  lemma ParseFailureEmpties(parse: string -> Option<Json>, text: string)
    requires FindArray(text).Some?
    requires parse(text[FindArray(text).value.start..FindArray(text).value.end]).None?
    ensures ExtractValidJson(parse, text) == []
  {
  }

  /** One raising item anywhere in the list, even past the tenth, empties the
      whole result rather than dropping that item alone */
  lemma RaiseEmptiesBatch(items: seq<Json>, i: nat)
    requires i < |items| && Classify(items[i]).Raise?
    ensures FromParsed(JArray(items)) == []
  {
  }

  /** Deleting an item that the loop skips leaves the result unchanged: a
      missing key costs that item only */
  lemma DroppedItemIsolated(items: seq<Json>, i: nat)
    requires i < |items| && Classify(items[i]).Drop?
    ensures ValidateItems(items[..i] + items[i + 1..]) == ValidateItems(items)
    ensures FromParsed(JArray(items[..i] + items[i + 1..])) == FromParsed(JArray(items))
  {
    LoopSkipsDropped(items, i);
  }

  /** The loop part of `DroppedItemIsolated`, by induction on the position */
  lemma {:induction false} LoopSkipsDropped(items: seq<Json>, i: nat)
    requires i < |items| && Classify(items[i]).Drop?
    ensures ValidateItems(items[..i] + items[i + 1..]) == ValidateItems(items)
  {
    var without := items[..i] + items[i + 1..];
    if i == 0 {
      assert without == items[1..];
    } else {
      LoopSkipsDropped(items[1..], i - 1);
      assert items[1..][..i - 1] + items[1..][i..] == without[1..];
      assert without[0] == items[0];
    }
  }

  /** Only a list can yield records: a parsed dict iterates over its keys and a
      string over its characters, and each of those strings is skipped or raises */
  lemma OnlyListsYieldRecords(data: Json)
    requires !data.JArray?
    ensures FromParsed(data) == []
  {
    if Iterate(data).Some? {
      StringsYieldNoRecords(Iterate(data).value);
    }
  }

  lemma {:induction false} StringsYieldNoRecords(items: seq<Json>)
    requires forall i | 0 <= i < |items| :: items[i].JString?
    ensures ValidateItems(items) == None || ValidateItems(items) == Some([])
  {
    if items != [] {
      StringsYieldNoRecords(items[1..]);
    }
  }

  /** A string Duration normalises to its first run of digits, or to 0 when
      it has none; a first run longer than `int()` accepts raises */
  lemma DurationOfString(s: string)
    ensures !HasDigit(s) ==> NormalizeDuration(JString(s)) == Some(0)
    ensures NormalizeDuration(JString(s)).None? <==> exists a, b :: IsFirstRun(s, a, b) && b - a > MaxStrDigits
    ensures forall a, b | IsFirstRun(s, a, b) && b - a <= MaxStrDigits ::
              AllDigits(s[a..b]) && NormalizeDuration(JString(s)) == Some(DigitsValue(s[a..b]))
  {
    assert PyStr(JString(s)) == s;
    forall a, b | IsFirstRun(s, a, b) && b - a <= MaxStrDigits
      ensures AllDigits(s[a..b]) && NormalizeDuration(JString(s)) == Some(DigitsValue(s[a..b]))
    {
      ReadsRun(s, a, b);
    }
  }

  /** An integer Duration normalises to its absolute value, the minus sign of
      `str(-5)` not being a digit. An integer with more decimal digits than
      `str()` accepts raises. */
  lemma DurationOfInt(i: int)
    ensures var n := if i < 0 then -i else i;
            NormalizeDuration(JInt(i)) == if |Decimal(n)| <= MaxStrDigits then Some(n) else None
  {
    var n: nat := if i < 0 then -i else i;
    var d := Decimal(n);
    var s := IntStr(i);
    var a := if i < 0 then 1 else 0;
    assert s[a..] == d;
    assert s[a..|s|] == d;
    assert IsFirstRun(s, a, |s|);
    if |d| <= MaxStrDigits {
      ReadsRun(s, a, |s|);
    }
  }
}

=== FILE: json.dfy ===
/** The Python values `json.loads` produces, and the few Python built-ins the
    modelled code applies to them: key lookup, truthiness, iteration and `str()`. */
module Json {
  import opened Wrappers
  import opened Digits

  /** A decoded JSON value. An object stands for a Python dict: its members are
      in insertion order and, as `json.loads` builds them, have distinct keys.
      A float carries the text Python's `repr` gives it; integers are unbounded. */
  datatype Json =
    | JNull
    | JBool(b: bool)
    | JInt(i: int)
    | JFloat(repr: string)
    | JString(s: string)
    | JArray(items: seq<Json>)
    | JObject(members: seq<Member>)

  datatype Member = Member(key: string, value: Json)

  /** `k in d` for a dict */
  predicate HasKey(ms: seq<Member>, k: string) {
    exists i | 0 <= i < |ms| :: ms[i].key == k
  }

  /** `d[k]` for a dict that holds `k` */
  function Get(ms: seq<Member>, k: string): (v: Json)
    requires HasKey(ms, k)
    ensures exists i | 0 <= i < |ms| :: ms[i].key == k && ms[i].value == v
  {
    if ms[0].key == k then ms[0].value
    else
      assert HasKey(ms[1..], k) by {
        var i :| 0 <= i < |ms| && ms[i].key == k;
        assert ms[1..][i - 1].key == k;
      }
      var v := Get(ms[1..], k);
      assert exists i | 0 <= i < |ms| :: ms[i].key == k && ms[i].value == v by {
        var i :| 0 <= i < |ms| - 1 && ms[1..][i].key == k && ms[1..][i].value == v;
        assert ms[i + 1] == ms[1..][i];
      }
      v
  }

  /** Python truthiness: empty containers, zero, False and None are false */
  predicate Truthy(j: Json) {
    match j
    case JNull => false
    case JBool(b) => b
    case JInt(i) => i != 0
    case JFloat(r) => r != "0.0" && r != "-0.0"
    case JString(s) => s != []
    case JArray(xs) => xs != []
    case JObject(ms) => ms != []
  }

  /** `for x in j`: a list yields its items, a dict its keys, a string its
      characters; anything else raises TypeError (None here) */
  function Iterate(j: Json): (r: Option<seq<Json>>)
    ensures r.Some? <==> j.JArray? || j.JObject? || j.JString?
    ensures j.JArray? ==> r == Some(j.items)
    ensures j.JObject? ==> r.Some? && |r.value| == |j.members|
                           && forall i | 0 <= i < |j.members| :: r.value[i] == JString(j.members[i].key)
    ensures j.JString? ==> r.Some? && |r.value| == |j.s|
                           && forall i | 0 <= i < |j.s| :: r.value[i] == JString([j.s[i]])
  {
    match j
    case JArray(xs) => Some(xs)
    case JObject(ms) => Some(seq(|ms|, i requires 0 <= i < |ms| => JString(ms[i].key)))
    case JString(s) => Some(seq(|s|, i requires 0 <= i < |s| => JString([s[i]])))
    case _ => None
  }

  /** `str(i)` for an int: a minus sign for a negative `i`, then the digits of
      its absolute value */
  function IntStr(i: int): (r: string)
    ensures var k := if i < 0 then 1 else 0;
            && k < |r| && (i < 0 ==> r[0] == '-')
            && AllDigits(r[k..]) && DigitsValue(r[k..]) == (if i < 0 then -i else i)
            && (i != 0 ==> r[k] != '0') && (i == 0 ==> r == "0")
  {
    if i < 0 then "-" + Decimal(-i) else Decimal(i)
  }

  /** `str(j)`: a string is itself; None and the booleans are words without
      digits; an int is its sign and decimal digits; a list or dict is the
      bracketed repr of its contents */
  function PyStr(j: Json): (r: string)
    ensures j.JString? ==> r == j.s
    ensures j.JNull? || j.JBool? ==> !HasDigit(r)
    ensures j.JInt? ==>
              var k := if j.i < 0 then 1 else 0;
              && k < |r| && (j.i < 0 ==> r[0] == '-')
              && AllDigits(r[k..]) && DigitsValue(r[k..]) == (if j.i < 0 then -j.i else j.i)
              && (j.i != 0 ==> r[k] != '0') && (j.i == 0 ==> r == "0")
    ensures j.JArray? ==> 2 <= |r| && r[0] == '[' && r[|r| - 1] == ']'
    ensures j.JObject? ==> 2 <= |r| && r[0] == '{' && r[|r| - 1] == '}'
    decreases j, 1, 0
  {
    match j
    case JNull => "None"
    case JBool(b) => if b then "True" else "False"
    case JInt(i) => IntStr(i)
    case JFloat(r) => r
    case JString(s) => s
    case JArray(xs) => "[" + ItemsRepr(j, 0) + "]"
    case JObject(ms) => "{" + MembersRepr(j, 0) + "}"
  }

  /** `repr(j)`, as it appears inside the `str()` of a list or dict */
  function Repr(j: Json): string
    decreases j, 2, 0
  {
    if j.JString? then StrRepr(j.s) else PyStr(j)
  }

  /** `", ".join(repr(x) for x in items[i:])` for a list `j` */
  function ItemsRepr(j: Json, i: nat): string
    requires j.JArray? && i <= |j.items|
    decreases j, 0, |j.items| - i
  {
    if i == |j.items| then ""
    else Repr(j.items[i]) + (if i + 1 == |j.items| then "" else ", " + ItemsRepr(j, i + 1))
  }

  /** `", ".join(repr(k) + ": " + repr(v) for k, v in members[i:])` for a dict `j` */
  function MembersRepr(j: Json, i: nat): string
    requires j.JObject? && i <= |j.members|
    decreases j, 0, |j.members| - i
  {
    if i == |j.members| then ""
    else
      var m := j.members[i];
      StrRepr(m.key) + ": " + Repr(m.value)
      + (if i + 1 == |j.members| then "" else ", " + MembersRepr(j, i + 1))
  }

  /** `repr(s)` for a string: single quotes unless `s` holds a single quote and
      no double quote; backslash, the quote, tab, newline and carriage return
      escaped; other ASCII control characters written as `\xhh` */
  function StrRepr(s: string): string {
    var q := if '\'' in s && '"' !in s then '"' else '\'';
    [q] + EscapeAll(s, q) + [q]
  }

  function EscapeAll(s: string, q: char): string {
    if s == [] then "" else Escape(s[0], q) + EscapeAll(s[1..], q)
  }

  function Escape(c: char, q: char): string {
    if c == q || c == '\\' then ['\\', c]
    else if c == '\t' then "\\t"
    else if c == '\n' then "\\n"
    else if c == '\r' then "\\r"
    else if c < ' ' || c as int == 0x7F then "\\x" + [HexDigit(c as int / 16), HexDigit(c as int % 16)]
    else [c]
  }

  function HexDigit(d: nat): char
    requires d < 16
  {
    "0123456789abcdef"[d]
  }
}

=== FILE: pytext.dfy ===
/** Python's character classes and the two string operations the modelled code
    relies on: `str.strip()` and substring membership (`a in b` for strings). */
module PyText {

  /** The characters Python's `str.isspace()` accepts. The same set is what `\s`
      matches in a `str` pattern of the `re` module and what `str.strip()` removes. */
  predicate IsSpace(c: char) {
    var n := c as int;
    || n == 0x20
    || 0x09 <= n <= 0x0D
    || 0x1C <= n <= 0x1F
    || n == 0x85
    || n == 0xA0
    || n == 0x1680
    || 0x2000 <= n <= 0x200A
    || n == 0x2028
    || n == 0x2029
    || n == 0x202F
    || n == 0x205F
    || n == 0x3000
  }

  predicate AllSpace(s: string) {
    forall i | 0 <= i < |s| :: IsSpace(s[i])
  }

  /** Index of the first non-space character at or after `i`, or `|s|` */
  function SkipSpace(s: string, i: nat): (r: nat)
    requires i <= |s|
    ensures i <= r <= |s|
    ensures forall p | i <= p < r :: IsSpace(s[p])
    ensures r == |s| || !IsSpace(s[r])
    decreases |s| - i
  {
    if i == |s| || !IsSpace(s[i]) then i else SkipSpace(s, i + 1)
  }

  /** One past the last non-space character of `s[..j]`, or 0 */
  function TrimEnd(s: string, j: nat): (r: nat)
    requires j <= |s|
    ensures r <= j
    ensures AllSpace(s[r..j])
    ensures r == 0 || !IsSpace(s[r - 1])
  {
    if j == 0 || !IsSpace(s[j - 1]) then j
    else
      var r := TrimEnd(s, j - 1);
      assert s[r..j] == s[r..j - 1] + [s[j - 1]];
      r
  }

  /** `s.strip()`: `s` without its leading and trailing whitespace */
  function Strip(s: string): (r: string)
    ensures r == [] <==> AllSpace(s)
    ensures r != [] ==> !IsSpace(r[0]) && !IsSpace(r[|r| - 1])
    ensures exists a, b :: 0 <= a <= b <= |s| && r == s[a..b] && AllSpace(s[..a]) && AllSpace(s[b..])
  {
    var a := SkipSpace(s, 0);
    if a == |s| then
      assert s[..0] == [] && s[|s|..] == [];
      []
    else
      var b := TrimEnd(s, |s|);
      assert !IsSpace(s[a]);
      assert a < b;
      assert s[..a] == s[0..a];
      assert s[b..] == s[b..|s|];
      s[a..b]
  }

  /** `sub in s` for two strings: `sub` occurs contiguously in `s` */
  predicate Contains(s: string, sub: string) {
    exists i | 0 <= i <= |s| - |sub| :: OccursAt(s, sub, i)
  }

  predicate OccursAt(s: string, sub: string, i: int)
    requires 0 <= i <= |s| - |sub|
  {
    s[i..i + |sub|] == sub
  }
}

=== FILE: schema.dfy ===
/** The shape both entry points expect of one recommendation in the model's
    reply: a JSON object carrying six named keys. */
module Schema {
  import opened Json

  const NameKey := "Assessment Name"
  const UrlKey := "URL"
  const RemoteKey := "Remote Testing Support"
  const AdaptiveKey := "Adaptive/IRT Support"
  const DurationKey := "Duration"
  const TestTypeKey := "Test Type"

  /** The six keys, in the order api.py tests them */
  const RequiredKeys: seq<string> := [NameKey, UrlKey, RemoteKey, AdaptiveKey, DurationKey, TestTypeKey]

  predicate HasAllKeys(ms: seq<Member>) {
    forall k | k in RequiredKeys :: HasKey(ms, k)
  }

  /** A dict that carries all six keys */
  predicate IsComplete(j: Json) {
    j.JObject? && HasAllKeys(j.members)
  }

  predicate AllComplete(recs: seq<Json>) {
    forall i | 0 <= i < |recs| :: IsComplete(recs[i])
  }

  /** `rec[k]` for one of the six keys of a complete dict */
  function Field(rec: Json, k: string): Json
    requires IsComplete(rec) && k in RequiredKeys
  {
    Get(rec.members, k)
  }

  /** `v if isinstance(v, list) else [v]`: the Test Type value seen as a list */
  function AsList(v: Json): seq<Json> {
    if v.JArray? then v.items else [v]
  }
}

=== FILE: seqs.dfy ===
/** Order-preserving selection over sequences: the reference definitions that the
    list comprehensions of the modelled code are compared with. */
module Seqs {

  /** The elements of `xs` satisfying `p`, in their original order */
  function Filter<T>(p: T -> bool, xs: seq<T>): (r: seq<T>)
    ensures |r| <= |xs|
  {
    if xs == [] then []
    else (if p(xs[0]) then [xs[0]] else []) + Filter(p, xs[1..])
  }

  /** `a` is obtained from `b` by deleting elements, keeping the order of the rest */
  predicate IsSubseq<T(==)>(a: seq<T>, b: seq<T>)
    decreases |b|
  {
    if a == [] then true
    else if b == [] then false
    else (a[0] == b[0] && IsSubseq(a[1..], b[1..])) || IsSubseq(a, b[1..])
  }

  /** Filtering one more element at the end extends the filtered sequence by at most that element */
  lemma {:induction false} FilterSnoc<T>(p: T -> bool, xs: seq<T>, x: T)
    ensures Filter(p, xs + [x]) == Filter(p, xs) + (if p(x) then [x] else [])
  {
    var last := if p(x) then [x] else [];
    if xs == [] {
      assert xs + [x] == [x];
      assert Filter(p, [x]) == last + Filter(p, []);
    } else {
      var head := if p(xs[0]) then [xs[0]] else [];
      assert (xs + [x])[0] == xs[0];
      assert (xs + [x])[1..] == xs[1..] + [x];
      calc {
        Filter(p, xs + [x]);
        head + Filter(p, xs[1..] + [x]);
        { FilterSnoc(p, xs[1..], x); }
        head + (Filter(p, xs[1..]) + last);
        (head + Filter(p, xs[1..])) + last;
        Filter(p, xs) + last;
      }
    }
  }

  /** Everything a filter keeps comes from the input and satisfies the predicate */
  lemma {:induction false} FilterKeeps<T>(p: T -> bool, xs: seq<T>)
    ensures forall i | 0 <= i < |Filter(p, xs)| :: Filter(p, xs)[i] in xs && p(Filter(p, xs)[i])
  {
    if xs != [] {
      FilterKeeps(p, xs[1..]);
    }
  }

  /** A filter keeps the order of what it keeps */
  lemma {:induction false} FilterIsSubseq<T>(p: T -> bool, xs: seq<T>)
    ensures IsSubseq(Filter(p, xs), xs)
  {
    if xs != [] {
      FilterIsSubseq(p, xs[1..]);
      var r := Filter(p, xs);
      if p(xs[0]) {
        assert r[0] == xs[0] && r[1..] == Filter(p, xs[1..]);
      } else {
        assert r == Filter(p, xs[1..]);
      }
    }
  }

  /** Deleting elements twice is deleting elements once */
  lemma {:induction false} IsSubseqTransitive<T>(a: seq<T>, b: seq<T>, c: seq<T>)
    requires IsSubseq(a, b) && IsSubseq(b, c)
    ensures IsSubseq(a, c)
    decreases |c|
  {
    if a != [] {
      assert b != [] && c != [];
      if IsSubseq(b, c[1..]) {
        IsSubseqTransitive(a, b, c[1..]);
      } else {
        assert b[0] == c[0] && IsSubseq(b[1..], c[1..]);
        if a[0] == b[0] && IsSubseq(a[1..], b[1..]) {
          IsSubseqTransitive(a[1..], b[1..], c[1..]);
        } else {
          IsSubseqTransitive(a, b[1..], c[1..]);
        }
      }
    }
  }

  lemma {:induction false} IsSubseqRefl<T>(xs: seq<T>)
    ensures IsSubseq(xs, xs)
  {
    if xs != [] {
      IsSubseqRefl(xs[1..]);
    }
  }
}

=== FILE: ui.dfy ===
/** The Streamlit page of app.py: `json_extraction`, and the block that turns the
    parsed reply into the table shown to the user (valid records, the Test Type
    options, the Test Type and Duration filters). Widgets, layout and session
    bookkeeping are not modelled; the user's choices are inputs. */
module Ui {
  import opened Wrappers
  import opened Seqs
  import opened Digits
  import opened Json
  import opened Schema
  import opened ArraySearch
  import Extract

  /** `json_extraction(text)`: the parsed value of the first array-looking
      substring, unvalidated and uncapped; `[]` when there is none or it does not
      parse */
  function JsonExtraction(parse: string -> Option<Json>, text: string): (r: Json)
    ensures FindArray(text).None? ==> r == JArray([])
    ensures FindArray(text).Some? ==>
              var sp := FindArray(text).value;
              && (parse(text[sp.start..sp.end]).Some? ==> r == parse(text[sp.start..sp.end]).value)
              && (parse(text[sp.start..sp.end]).None? ==> r == JArray([]))
    ensures r != JArray([]) ==>
              var sp := FindArray(text).value;
              FindArray(text).Some? && parse(text[sp.start..sp.end]) == Some(r)
  {
    match FindArray(text)
    case None => JArray([])
    case Some(sp) => parse(text[sp.start..sp.end]).GetOr(JArray([]))
  }

  /** Every item is a dict, so `rec.keys()` can be called on each */
  predicate AllDicts(recs: seq<Json>) {
    forall i | 0 <= i < |recs| :: recs[i].JObject?
  }

  /** `valid_recs`: the complete dicts, in order. Any item that is not a dict
      makes `rec.keys()` raise, which stops the page script (None). */
  method ValidRecs(recs: seq<Json>) returns (r: Option<seq<Json>>)
    ensures r.Some? <==> AllDicts(recs)
    ensures r.Some? ==> r.value == Filter(IsComplete, recs)
    ensures r.Some? ==> AllComplete(r.value)
  {
    var valid: seq<Json> := [];
    for i := 0 to |recs|
      invariant AllDicts(recs[..i])
      invariant valid == Filter(IsComplete, recs[..i])
    {
      if !recs[i].JObject? {
        return None;
      }
      if HasAllKeys(recs[i].members) {
        valid := valid + [recs[i]];
      }
      FilterSnoc(IsComplete, recs[..i], recs[i]);
      assert recs[..i + 1] == recs[..i] + [recs[i]];
    }
    assert recs[..|recs|] == recs;
    FilterKeeps(IsComplete, recs);
    return Some(valid);
  }

  /** A Test Type value may contribute an element to the option set */
  predicate Hashable(j: Json) {
    !j.JArray? && !j.JObject?
  }

  /** `x` is offered as a Test Type option by the dict `rec`: its Test Type is the
      string `x`, or a list holding `x` */
  ghost predicate Offers(rec: Json, x: Json) {
    && IsComplete(rec)
    && var tt := Field(rec, TestTypeKey);
       (tt.JString? && x == tt) || (tt.JArray? && x in tt.items)
  }

  /** The options the dict `rec` adds to `test_types`: its string Test Type, or
      the elements of its list Test Type */
  function Offered(rec: Json): (r: set<Json>)
    requires IsComplete(rec)
    ensures forall x :: x in r <==> Offers(rec, x)
  {
    var tt := Field(rec, TestTypeKey);
    if tt.JString? then {tt}
    else if tt.JArray? then set k | 0 <= k < |tt.items| :: tt.items[k]
    else {}
  }

  /** The whole option set built from `valid_recs`, record by record */
  function OptionSet(valid: seq<Json>): set<Json>
    requires AllComplete(valid)
  {
    if valid == [] then {}
    else OptionSet(valid[..|valid| - 1]) + Offered(valid[|valid| - 1])
  }

  /** A value is in the option set exactly when some record offers it */
  lemma {:induction false} OptionSetMembers(valid: seq<Json>)
    requires AllComplete(valid)
    ensures forall x :: x in OptionSet(valid) <==> exists i | 0 <= i < |valid| :: Offers(valid[i], x)
  {
    if valid != [] {
      var init := valid[..|valid| - 1];
      OptionSetMembers(init);
      forall x
        ensures x in OptionSet(valid) <==> exists i | 0 <= i < |valid| :: Offers(valid[i], x)
      {
        if x in OptionSet(valid) && x in OptionSet(init) {
          var i :| 0 <= i < |init| && Offers(init[i], x);
          assert valid[i] == init[i];
        }
        if exists i | 0 <= i < |valid| :: Offers(valid[i], x) {
          var i :| 0 <= i < |valid| && Offers(valid[i], x);
          if i < |init| {
            assert init[i] == valid[i];
          }
        }
      }
    }
  }

  /** No list-valued Test Type holds a list or dict, which `set.update` would
      reject as unhashable */
  predicate AllHashable(recs: seq<Json>)
    requires AllComplete(recs)
  {
    forall i | 0 <= i < |recs| ::
      var tt := Field(recs[i], TestTypeKey);
      tt.JArray? ==> forall k | 0 <= k < |tt.items| :: Hashable(tt.items[k])
  }

  /** The `test_types` set: string Test Types and the elements of list Test
      Types; other shapes contribute nothing. None when an unhashable element
      stops the script. */
  method TestTypeOptions(valid: seq<Json>) returns (r: Option<set<Json>>)
    requires AllComplete(valid)
    ensures r.Some? <==> AllHashable(valid)
    ensures r.Some? ==> forall x :: x in r.value <==> exists i | 0 <= i < |valid| :: Offers(valid[i], x)
    ensures r.Some? ==> r.value == OptionSet(valid)
  {
    var options: set<Json> := {};
    for i := 0 to |valid|
      invariant AllHashable(valid[..i])
      invariant options == OptionSet(valid[..i])
    {
      var tt := Field(valid[i], TestTypeKey);
      if tt.JString? {
        options := options + {tt};
      } else if tt.JArray? {
        if exists k | 0 <= k < |tt.items| :: !Hashable(tt.items[k]) {
          return None;
        }
        options := options + set k | 0 <= k < |tt.items| :: tt.items[k];
      }
      assert valid[..i + 1] == valid[..i] + [valid[i]];
      assert valid[..i + 1][..i] == valid[..i];
    }
    assert valid[..|valid|] == valid;
    OptionSetMembers(valid);
    return Some(options);
  }

  /** At least one selected type occurs in the record's Test Type, a string
      Test Type counting as a one-element list */
  predicate Selects(selected: seq<Json>, rec: Json) {
    && rec.JObject?
    && HasKey(rec.members, TestTypeKey)
    && exists t | t in selected :: t in AsList(Get(rec.members, TestTypeKey))
  }

  function TypeSelector(selected: seq<Json>): Json -> bool {
    rec => Selects(selected, rec)
  }

  /** The Test Type filter: the identity when nothing is selected, otherwise the
      records in which some selected type occurs, in order */
  method FilterByTestType(recs: seq<Json>, selected: seq<Json>) returns (r: seq<Json>)
    ensures selected == [] ==> r == recs
    ensures selected != [] ==> r == Filter(TypeSelector(selected), recs)
    ensures selected != [] ==> forall i | 0 <= i < |r| :: Selects(selected, r[i])
  {
    if selected == [] {
      return recs;
    }
    r := [];
    for i := 0 to |recs|
      invariant r == Filter(TypeSelector(selected), recs[..i])
    {
      if Selects(selected, recs[i]) {
        r := r + [recs[i]];
      }
      FilterSnoc(TypeSelector(selected), recs[..i], recs[i]);
      assert recs[..i + 1] == recs[..i] + [recs[i]];
    }
    assert recs[..|recs|] == recs;
    FilterKeeps(TypeSelector(selected), recs);
  }

  /** The record's Duration is a string whose first run of digits reads at most
      `maxDuration`; a run too long for `int()` never qualifies (it raises, see
      `DurationRaises`) */
  predicate WithinDuration(maxDuration: int, rec: Json) {
    && rec.JObject?
    && HasKey(rec.members, DurationKey)
    && var d := Get(rec.members, DurationKey);
       && d.JString?
       && var run := FirstDigitRun(d.s);
          run.Number? && run.value <= maxDuration
  }

  function DurationSelector(maxDuration: int): Json -> bool {
    rec => WithinDuration(maxDuration, rec)
  }

  /** The Duration test raises on this record: its Duration is a string whose
      first run of digits is longer than `int()` accepts */
  predicate DurationRaises(rec: Json) {
    && rec.JObject?
    && HasKey(rec.members, DurationKey)
    && var d := Get(rec.members, DurationKey);
       d.JString? && FirstDigitRun(d.s).TooLong?
  }

  predicate AnyDurationRaises(recs: seq<Json>) {
    exists i | 0 <= i < |recs| :: DurationRaises(recs[i])
  }

  /** The Duration filter: keeps, in order, the records whose Duration is a
      string with a digit whose first run of digits is at most `maxDuration`.
      A numeric or digitless Duration drops the record; a run of more than
      4300 digits makes `int()` raise, which stops the page script (None). */
  method FilterByDuration(recs: seq<Json>, maxDuration: int) returns (r: Option<seq<Json>>)
    ensures r.None? <==> AnyDurationRaises(recs)
    ensures r.Some? ==> r.value == Filter(DurationSelector(maxDuration), recs)
    ensures r.Some? ==> forall i | 0 <= i < |r.value| ::
              && r.value[i].JObject? && HasKey(r.value[i].members, DurationKey)
              && var d := Get(r.value[i].members, DurationKey);
                 && d.JString?
                 && exists a, b :: && IsFirstRun(d.s, a, b) && b - a <= MaxStrDigits
                                   && AllDigits(d.s[a..b]) && DigitsValue(d.s[a..b]) <= maxDuration
  {
    var kept: seq<Json> := [];
    for i := 0 to |recs|
      invariant !AnyDurationRaises(recs[..i])
      invariant kept == Filter(DurationSelector(maxDuration), recs[..i])
    {
      if DurationRaises(recs[i]) {
        return None;
      }
      if WithinDuration(maxDuration, recs[i]) {
        kept := kept + [recs[i]];
      }
      FilterSnoc(DurationSelector(maxDuration), recs[..i], recs[i]);
      assert recs[..i + 1] == recs[..i] + [recs[i]];
    }
    assert recs[..|recs|] == recs;
    FilterKeeps(DurationSelector(maxDuration), recs);
    forall i | 0 <= i < |kept|
      ensures && kept[i].JObject? && HasKey(kept[i].members, DurationKey)
              && var d := Get(kept[i].members, DurationKey);
                 && d.JString?
                 && exists a, b :: && IsFirstRun(d.s, a, b) && b - a <= MaxStrDigits
                                   && AllDigits(d.s[a..b]) && DigitsValue(d.s[a..b]) <= maxDuration
    {
      assert WithinDuration(maxDuration, kept[i]);
    }
    return Some(kept);
  }

  /** The records that reach the Duration filter: all of `valid` when no type is
      selected, otherwise those the Test Type filter keeps */
  function ByType(valid: seq<Json>, selected: seq<Json>): seq<Json> {
    if selected == [] then valid else Filter(TypeSelector(selected), valid)
  }

  /** `filtered_recs` as a function of `valid_recs` and the user's choices when
      no Duration raises: the Test Type filter, then the Duration filter */
  function Filtered(valid: seq<Json>, selected: seq<Json>, maxDuration: int): seq<Json> {
    Filter(DurationSelector(maxDuration), ByType(valid, selected))
  }

  /** The two filters in the order the page applies them: every row is complete,
      passes the duration bound and matches a selected type when any is
      selected. None when a record that reaches the Duration filter raises. */
  method ApplyFilters(valid: seq<Json>, selected: seq<Json>, maxDuration: int) returns (r: Option<seq<Json>>)
    requires AllComplete(valid)
    ensures r.None? <==> AnyDurationRaises(ByType(valid, selected))
    ensures r.Some? ==> r.value == Filtered(valid, selected, maxDuration)
    ensures r.Some? ==> AllComplete(r.value)
    ensures r.Some? ==> forall i | 0 <= i < |r.value| ::
              WithinDuration(maxDuration, r.value[i]) && (selected != [] ==> Selects(selected, r.value[i]))
  {
    var byType := FilterByTestType(valid, selected);
    r := FilterByDuration(byType, maxDuration);
    if r.None? {
      return;
    }
    FilterKeeps(DurationSelector(maxDuration), byType);
    if selected != [] {
      FilterKeeps(TypeSelector(selected), valid);
    }
    forall i | 0 <= i < |r.value|
      ensures IsComplete(r.value[i])
    {
      assert r.value[i] in byType;
    }
  }

  /** What survives both filters is a subsequence of `valid_recs`: the filters
      only delete records and never reorder them */
  lemma {:induction false} FilteredIsSubseq(valid: seq<Json>, selected: seq<Json>, maxDuration: int)
    ensures IsSubseq(Filtered(valid, selected, maxDuration), valid)
  {
    var byType := ByType(valid, selected);
    if selected == [] {
      IsSubseqRefl(valid);
    } else {
      FilterIsSubseq(TypeSelector(selected), valid);
    }
    FilterIsSubseq(DurationSelector(maxDuration), byType);
    IsSubseqTransitive(Filtered(valid, selected, maxDuration), byType, valid);
  }

  /** What the results area shows */
  datatype View =
    | Idle            // nothing parsed and no raw reply
    | ParseError      // a raw reply, but nothing usable parsed from it
    | MissingFields   // no record carries all six keys
    | NoMatches       // the filters leave nothing
    | Table(rows: seq<Json>)
    | ScriptError     // a Python exception stops the page script

  /** Python's `sorted` on the option set succeeds: at most one element, or all
      strings, or all numbers */
  predicate Sortable(options: set<Json>) {
    || |options| <= 1
    || (forall x | x in options :: x.JString?)
    || (forall x | x in options :: x.JInt? || x.JFloat? || x.JBool?)
  }

  /** The page reaches its filter block: the parsed value can be iterated and
      every item is a dict */
  predicate Listable(recommendations: Json) {
    Iterate(recommendations).Some? && AllDicts(Iterate(recommendations).value)
  }

  /** `valid_recs` of a listable parsed value */
  function ValidOf(recommendations: Json): (r: seq<Json>)
    requires Listable(recommendations)
    ensures AllComplete(r)
  {
    FilterKeeps(IsComplete, Iterate(recommendations).value);
    Filter(IsComplete, Iterate(recommendations).value)
  }

  /** Once there are valid records, the page script stops on any of: an
      unhashable Test Type element, an option set `sorted` rejects, or a Duration
      too long for `int()` among the records the Test Type filter keeps */
  predicate PageStops(valid: seq<Json>, selected: seq<Json>, maxDuration: int)
    requires AllComplete(valid)
  {
    || !AllHashable(valid)
    || !Sortable(OptionSet(valid))
    || AnyDurationRaises(ByType(valid, selected))
  }

  /** The results block, from the stored reply and parsed value to what is shown */
  method Render(raw: string, recommendations: Json, selected: seq<Json>, maxDuration: int) returns (v: View)
    ensures v == Idle <==> !Truthy(recommendations) && raw == []
    ensures v == ParseError <==> !Truthy(recommendations) && raw != []
    ensures v == ScriptError <==>
              && Truthy(recommendations)
              && (|| !Listable(recommendations)
                  || (ValidOf(recommendations) != [] && PageStops(ValidOf(recommendations), selected, maxDuration)))
    ensures v == MissingFields <==>
              Truthy(recommendations) && Listable(recommendations) && ValidOf(recommendations) == []
    ensures v == NoMatches <==>
              && Truthy(recommendations) && Listable(recommendations) && ValidOf(recommendations) != []
              && !PageStops(ValidOf(recommendations), selected, maxDuration)
              && Filtered(ValidOf(recommendations), selected, maxDuration) == []
    ensures v.Table? ==>
              && Truthy(recommendations) && Listable(recommendations)
              && v.rows == Filtered(ValidOf(recommendations), selected, maxDuration)
              && v.rows != []
              && IsSubseq(v.rows, ValidOf(recommendations))
              && IsSubseq(v.rows, Iterate(recommendations).value)
              && forall i | 0 <= i < |v.rows| ::
                   && IsComplete(v.rows[i])
                   && WithinDuration(maxDuration, v.rows[i])
                   && (selected != [] ==> Selects(selected, v.rows[i]))
  {
    if !Truthy(recommendations) {
      return if raw == [] then Idle else ParseError;
    }
    var items := Iterate(recommendations);
    if items.None? {
      return ScriptError;
    }
    var valid := ValidRecs(items.value);
    if valid.None? {
      return ScriptError;
    }
    assert valid.value == ValidOf(recommendations);
    if valid.value == [] {
      return MissingFields;
    }
    var options := TestTypeOptions(valid.value);
    if options.None? || !Sortable(options.value) {
      return ScriptError;
    }
    var filtered := ApplyFilters(valid.value, selected, maxDuration);
    if filtered.None? {
      return ScriptError;
    }
    if filtered.value == [] {
      return NoMatches;
    }
    FilteredIsSubseq(valid.value, selected, maxDuration);
    FilterIsSubseq(IsComplete, items.value);
    IsSubseqTransitive(filtered.value, valid.value, items.value);
    return Table(filtered.value);
  }

  /** Where the page and the API part ways on Duration: a Duration that is not a
      string, or a string without a digit, drops the record from the table,
      while the API reads its duration from the digits of `str(v)`, or 0,
      unless `str()` or `int()` raises. A string whose first run is too long for `int()` stops
      the page script and, in the API, empties the batch. */
  lemma DurationFilterVersusApi(rec: Json, maxDuration: int)
    requires IsComplete(rec)
    ensures !Field(rec, DurationKey).JString? ==> !WithinDuration(maxDuration, rec)
    ensures Field(rec, DurationKey).JString? && !HasDigit(Field(rec, DurationKey).s) ==>
              && !WithinDuration(maxDuration, rec)
              && Extract.NormalizeDuration(Field(rec, DurationKey)) == Some(0)
    ensures Field(rec, DurationKey).JInt? ==>
              var i := Field(rec, DurationKey).i;
              var n: nat := if i < 0 then -i else i;
              && !WithinDuration(maxDuration, rec)
              && Extract.NormalizeDuration(Field(rec, DurationKey)) ==
                   if |Decimal(n)| <= MaxStrDigits then Some(n) else None
    ensures DurationRaises(rec) <==>
              Field(rec, DurationKey).JString? && Extract.NormalizeDuration(Field(rec, DurationKey)).None?
  {
    if Field(rec, DurationKey).JInt? {
      Extract.DurationOfInt(Field(rec, DurationKey).i);
    }
    if Field(rec, DurationKey).JString? {
      Extract.DurationOfString(Field(rec, DurationKey).s);
    }
  }
}

=== FILE: url_check.dfy ===
/** The URL-format test of app.py's URL input:
    `re.match(r'^https?://[^\s/$.?#].[^\s]*$', url)`.

    After the scheme comes one character that is neither whitespace nor one of
    `/ $ . ? #`, then one character of any kind but a newline (`.` without
    DOTALL), then non-whitespace up to the end. Python's `$` also matches just
    before a newline that ends the string, so one trailing newline is accepted. */
module UrlCheck {
  import opened PyText

  const Schemes: seq<string> := ["http://", "https://"]

  /** The characters the first class after the scheme excludes besides whitespace */
  const Excluded: string := "/$.?#"

  /** The length of the scheme `s` starts with, or 0 if it starts with neither.
      The `s?` of the pattern is greedy and leaves no alternative: a string
      starting with "https://" cannot also start with "http://". */
  function SchemeLength(s: string): nat {
    if |s| >= 8 && s[..8] == "https://" then 8
    else if |s| >= 7 && s[..7] == "http://" then 7
    else 0
  }

  predicate HostStart(c: char) {
    !IsSpace(c) && c !in Excluded
  }

  /** `[^\s]*$` from index `i` of `s` to the end, as the engine tries it: stop at
      the first whitespace character, which `$` accepts only when it is a newline
      ending the string */
  function ScanTail(s: string, i: nat): (r: bool)
    requires i <= |s|
    ensures r <==> || (forall k | i <= k < |s| :: !IsSpace(s[k]))
                   || (i < |s| && s[|s| - 1] == '\n' && forall k | i <= k < |s| - 1 :: !IsSpace(s[k]))
    decreases |s| - i
  {
    if i == |s| then true
    else if IsSpace(s[i]) then i == |s| - 1 && s[i] == '\n'
    else ScanTail(s, i + 1)
  }

  /** The condition `job_url and re.match(...)` */
  predicate IsUrlFormat(s: string) {
    var p := SchemeLength(s);
    && p > 0
    && p + 2 <= |s|
    && HostStart(s[p])
    && s[p + 1] != '\n'
    && ScanTail(s, p + 2)
  }

  /** `s` is, as a whole, in the language of the pattern without its `$` */
  ghost predicate InPattern(s: string) {
    exists scheme | scheme in Schemes ::
      && |scheme| + 2 <= |s|
      && s[..|scheme|] == scheme
      && HostStart(s[|scheme|])
      && s[|scheme| + 1] != '\n'
      && forall k | |scheme| + 2 <= k < |s| :: !IsSpace(s[k])
  }

  /** What the anchored pattern accepts: a string in the language, optionally
      followed by one newline */
  ghost predicate Accepted(s: string) {
    || InPattern(s)
    || (|s| > 0 && s[|s| - 1] == '\n' && InPattern(s[..|s| - 1]))
  }

  lemma SchemeOfPattern(s: string, scheme: string)
    requires scheme in Schemes && |scheme| <= |s| && s[..|scheme|] == scheme
    ensures SchemeLength(s) == |scheme|
  {
    if scheme == "http://" {
      assert s[4] == scheme[4];
    }
  }

  /** The scan decides exactly the pattern's language */
  lemma UrlFormatMatchesPattern(s: string)
    ensures IsUrlFormat(s) <==> Accepted(s)
  {
    if IsUrlFormat(s) {
      var p := SchemeLength(s);
      var scheme := if p == 8 then "https://" else "http://";
      assert scheme in Schemes && s[..|scheme|] == scheme;
      if !InPattern(s) {
        var u := s[..|s| - 1];
        assert u[..|scheme|] == scheme;
        assert forall k | |scheme| + 2 <= k < |u| :: u[k] == s[k];
        assert InPattern(u);
      }
    }
    if Accepted(s) {
      if InPattern(s) {
        var scheme :| scheme in Schemes && |scheme| + 2 <= |s| && s[..|scheme|] == scheme
                      && HostStart(s[|scheme|]) && s[|scheme| + 1] != '\n'
                      && forall k | |scheme| + 2 <= k < |s| :: !IsSpace(s[k]);
        SchemeOfPattern(s, scheme);
      } else {
        var u := s[..|s| - 1];
        var scheme :| scheme in Schemes && |scheme| + 2 <= |u| && u[..|scheme|] == scheme
                      && HostStart(u[|scheme|]) && u[|scheme| + 1] != '\n'
                      && forall k | |scheme| + 2 <= k < |u| :: !IsSpace(u[k]);
        assert s[..|scheme|] == scheme;
        SchemeOfPattern(s, scheme);
        assert forall k | |scheme| + 2 <= k < |u| :: u[k] == s[k];
      }
    }
  }

  /** An accepted string starts with "http://" or "https://" and has at least
      two characters after it */
  lemma AcceptedHasScheme(s: string)
    requires IsUrlFormat(s)
    ensures (|s| >= 9 && s[..7] == "http://") || (|s| >= 10 && s[..8] == "https://")
  {
  }

  /** A space may follow the first host character, a single trailing newline is
      accepted, and an empty host or another scheme is refused */
  lemma UrlExamples()
    ensures IsUrlFormat("https://shl.com")
    ensures IsUrlFormat("http://a b")
    ensures IsUrlFormat("http://ab\n")
    ensures !IsUrlFormat("http:///x")
    ensures !IsUrlFormat("ftp://example.com")
  {
    var s := "http://ab\n";
    assert s[..7] == "http://";
    assert s[..8] != "https://" by { assert s[..8][4] != "https://"[4]; }
    assert s[8] == 'b' && s[7] == 'a';
    var f := "ftp://example.com";
    assert f[..7] != "http://" && f[..8] != "https://" by { assert f[0] == 'f'; }
  }
}

=== FILE: wrappers.dfy ===
/** The optional value used wherever the modelled code can come back empty-handed:
    a regular-expression search without a match, a JSON parse that fails, a
    record construction that raises. */
module Wrappers {

  datatype Option<+T> = None | Some(value: T) {

    /** The encapsulated value, or `default` for None */
    function GetOr(default: T): T {
      match this
      case Some(v) => v
      case None => default
    }
  }
}
